=== FILE: README.md ===
# Pong: circle geometry and ball motion

A Dafny model of the geometric core of a small pygame Pong game:

- `circles.dfy` (module `Circles`) models `circles.py`: `Colour` with its
  shadow and tuple form, `Circle` with its constructor and `set_fill`, and
  the three intersection tests `point_intersect`, `circle_intersect` and
  `rectangle_intersect` (closest point by clamping, the collision axis with
  ties going to x, and the push of the centre).
- `motion.dfy` (module `Motion`) models `main.py`: `Trajectory` as a line
  y = gradient·x + y_intercept with `perpendicular`, the `Ball` with its
  bounds test `_intersect_bounds` and its per-frame `move`.
  The getters `get_gradient` and `get_y_intercept` are the datatype's
  field selectors.
- `circle_facts.dfy` (module `CircleFacts`) and `motion_facts.dfy` (module
  `MotionFacts`) hold the properties proved about them.

All values are immutable datatypes and all operations pure functions: the
mutating methods of the source (`rectangle_intersect`, `perpendicular`,
`move`) return the new state, and `rectangle_intersect` returns its answer
(`None`, `"x"`, `"y"`, here `NoCollision`, `AxisX`, `AxisY`) together with
the moved circle.

Numbers: coordinates, radii, speeds, gradients and intercepts are exact
`real`s; colour channels and rectangle fields are `int`s as in pygame; the
centre after `move` holds integral values, because `move` applies Python's
`int()`, which truncates toward zero (`Motion.Trunc`). The `math.sqrt` of
`circle_intersect` is replaced by comparisons of squares (`RootEq`,
`RootLt`, `RootGt`); `CircleFacts.CircleIntersectMatchesDistance` proves
that for the true distance d the replacement answers exactly as the
comparisons of d would.

The model follows the code, including three behaviours that look odd:

- `circle_intersect` compares the distance with `r2 - r1`, not `|r1 - r2|`,
  so it is not symmetric: a small circle strictly inside a larger one does
  not intersect it, but the larger one intersects the small one
  (`CircleFacts.NestedCirclesAsymmetric`).
- `rectangle_intersect` moves a centre that lies before the touched edge to
  `closest + radius` and one after it to `closest - radius`: the centre ends
  one radius past the touched edge instead of being pushed away, beyond the
  far edge when the radius exceeds the width or height
  (`CircleFacts.PushCrossesEdge`, `CircleFacts.LeftBallPushedPastEdge`).
- `perpendicular` turns a zero gradient into gradient 0 (a horizontal line
  through the point) instead of a vertical line, so that bounce does not
  turn the ball at all (`MotionFacts.PerpendicularOrthogonalUnlessZero`);
  once its x is integral (from its first move on, since `move` truncates),
  a ball with gradient 0 never moves horizontally
  (`MotionFacts.ZeroGradientNeverAdvances`).

## Model

| member | source | states |
|---|---|---|
| `Circles.ShadowChannel` | circles.py:16-18 | One channel of the shadow is never negative; for a channel c >= 0 it is c/2 rounded down (2h <= c < 2h + 2), and for c < 0 it is 0. |
| `Circles.Shadow` | circles.py:14-19 | Each of the three channels of the shadow is the halved, floored, clamped channel of the colour. |
| `CircleFacts.HalvedChannelUnique` | circles.py:16-18 | The shadow contract admits exactly one value per channel, so it defines the shadow completely. |
| `CircleFacts.ShadowOfByteColour` | circles.py:14-19 | For 8-bit channels the shadow channels lie in [0, 127] and none exceeds the original channel. |
| `CircleFacts.ShadowClampsNegative` | circles.py:16 | Each negative channel (red, green or blue), which the constructor accepts, shadows to 0. |
| `CircleFacts.ShadowTwiceQuarters` | circles.py:14-19 | The shadow of the shadow of a colour with non-negative channels has each channel divided by 4, rounded down. |
| `Circles.HalfTowardZero` | circles.py:16-18 | `int(c * 0.5)`: for c >= 0 a value h with 0 <= 2h <= c < 2h + 2, for c < 0 one with 2h - 2 < c <= 2h <= 0 (truncation toward zero). |
| `Circles.FromTuple` | circles.py:6-9 | The constructor stores red, green and blue in that order. |
| `Circles.ToTuple` | circles.py:11-12 | The tuple holds red, green and blue in that order: building a colour from it gives back the colour. |
| `CircleFacts.TupleRoundTrip` | circles.py:6-12 | Colour to tuple to colour and tuple to colour to tuple are both identities. |
| `Circles.MakeCircle` | circles.py:23-30 | The constructor stores fill, radius, centre and border as given, and a missing border colour becomes black. |
| `Circles.SetFill` | circles.py:97-98 | set_fill installs the new fill and changes nothing else. |
| `Circles.PointIntersect` | circles.py:39-43 | The centre itself is always inside, and an accepted point lies within abs(radius) of the centre on each axis. |
| `CircleFacts.PointIntersectMatchesDistance` | circles.py:39-43 | For the true distance d from the point to the centre and any radius r, the point test holds exactly when d <= abs(r): the source never checks the sign of the radius, and squaring it makes the sign irrelevant. |
| `CircleFacts.PointOnRimIsInside` | circles.py:39-43 | Every point exactly one radius from the centre, in any unit direction, counts as inside: the test is inclusive. |
| `CircleFacts.PointIntersectIsZeroRadiusCircle` | circles.py:39-57 | For radius >= 0, testing a point equals testing the circle against a circle of radius 0 at that point. |
| `Circles.RootTestSquared` | circles.py:52-54 | For radii >= 0 the three square-root comparisons together hold exactly when d² <= (r1 + r2)² and, unless r2 <= r1, (r2 - r1)² <= d². |
| `Circles.CircleIntersect` | circles.py:45-57 | For radii >= 0 the test holds exactly when d² <= (r1 + r2)² and, when r2 > r1, also (r2 - r1)² <= d². |
| `CircleFacts.CircleIntersectMatchesDistance` | circles.py:45-57 | For the true centre distance d, the square-root-free test holds exactly when d == r1 + r2, or d == r2 - r1, or r2 - r1 < d < r1 + r2. |
| `CircleFacts.CircleIntersectWhenLarger` | circles.py:45-57 | When r1 >= r2 >= 0 the test holds exactly when d <= r1 + r2. |
| `CircleFacts.CircleIntersectWhenSmaller` | circles.py:45-57 | When 0 <= r1 < r2 the test holds exactly when r2 - r1 <= d <= r1 + r2. |
| `CircleFacts.NestedCirclesAsymmetric` | circles.py:52-57 | A circle strictly inside a larger one without touching does not intersect it, while the larger one intersects the smaller. |
| `CircleFacts.CircleIntersectNotSymmetric` | circles.py:52-57 | There are two circles a, b with circle_intersect(a, b) true and circle_intersect(b, a) false. |
| `Circles.Clamp` | circles.py:64-65 | The clamp of a value lies in [lo, hi] when lo <= hi, is the value itself when it is already there, and is lo when hi < lo. |
| `Circles.Closest` | circles.py:63-65 | The clamped point lies in the rectangle when width and height are >= 0, and is the centre itself when the centre lies in the rectangle. |
| `CircleFacts.ClosestInRect` | circles.py:63-65 | For non-negative width and height the closest point lies in the closed rectangle, and equals the centre exactly when the centre lies in it. |
| `CircleFacts.ClosestIsNearest` | circles.py:63-65 | No point of the closed rectangle is nearer to the centre than the clamped closest point. |
| `Circles.RectangleIntersect` | circles.py:59-95 | No collision exactly when the squared distance to the closest point exceeds r², with the circle unchanged; otherwise x when overlap_x >= overlap_y, else y, with only the centre moved, along that axis only, to closest ± r. |
| `CircleFacts.RectangleHitIffTouches` | circles.py:63-71 | A collision is reported exactly when the circle contains some point of the closed rectangle. |
| `CircleFacts.CentreInsideRectGoesX` | circles.py:72-84 | A centre inside the rectangle has both overlaps 0, so the answer is x and the centre moves right by one radius. |
| `CircleFacts.PushCrossesEdge` | circles.py:76-93 | On a hit with a centre strictly before (after) the touched edge, the new centre is the closest point plus (minus) one radius, so it lies strictly after (before) the edge: the centre crosses the edge. |
| `CircleFacts.LeftBallPushedPastEdge` | circles.py:78-80 | A ball left of the rectangle that hits on x moves to rect.x + radius, right of the left edge, and beyond the right edge when the radius exceeds the width. |
| `CircleFacts.GameBallPushedThroughPaddle` | circles.py:59-84 | A ball of radius 35 at (49, 60) against the rectangle (50, 50, 10, 70) answers x and ends at x = 85, past the far edge at 60. |
| `CircleFacts.FarCircleMisses` | circles.py:59-71 | Centre (0, 0), radius 5 against the rectangle (10, 10)-(20, 20): no collision. |
| `CircleFacts.CornerOutOfReach` | circles.py:59-71 | Centre (5, 5), radius 6 against the same rectangle: the corner is sqrt(50) away, no collision. |
| `CircleFacts.CornerTieGoesX` | circles.py:59-84 | Centre (5, 5), radius 8: both overlaps are 5, the tie answers x and the centre moves to (18, 5). |
| `Motion.Trunc` | main.py:76 | int() of a float: an integer n with n <= v < n + 1 for v >= 0 and n - 1 < v <= n for v < 0. |
| `MotionFacts.TruncationUnique` | main.py:76 | The truncation contract admits exactly one value. |
| `Motion.Perpendicular` | main.py:15-23 | The new gradient g' satisfies g'·g == -1 when g != 0, is 0 when g == 0, and the new line passes through the given point. |
| `MotionFacts.PerpendicularUnique` | main.py:15-23 | For g != 0, the only line through the point with g'·g == -1 is the one perpendicular returns. |
| `MotionFacts.PerpendicularOrthogonalUnlessZero` | main.py:16-19 | The old and new direction vectors (1, g) and (1, g') are orthogonal exactly when g != 0. |
| `MotionFacts.PerpendicularOfHorizontal` | main.py:18-23 | From gradient 0 the new line is the horizontal line y = p.y through the point. |
| `MotionFacts.PerpendicularTwiceRestores` | main.py:17-23 | Taking the perpendicular twice from a non-zero gradient restores the gradient, and the line passes through the second point. |
| `Motion.MakeBall` | main.py:39-54 | The ball holds the constructed circle, speed and trajectory as given, and reads the bounds tuple as ((north, west), (south, east)). |
| `Motion.IntersectBounds` | main.py:56-64 | A ball clear of the bounds is narrower than the playfield on both axes (2r < east - west and 2r < south - north) and, for r >= 0, its centre lies strictly inside. |
| `MotionFacts.IntersectBoundsIffNotInterior` | main.py:56-64 | The bounds test is false exactly when the circle lies strictly inside the bounds on both axes. |
| `MotionFacts.IntersectBoundsIffDiscReachesEdge` | main.py:56-64 | For radius >= 0, the bounds test holds exactly when some point of the closed disc lies on or beyond one of the four edges. |
| `Motion.Move` | main.py:66-76 | Only centre and trajectory change; the trajectory changes only when the bounds test held, to the perpendicular through the old centre; the new centre is the truncation toward zero of x + speed·g' and of the new line's y there. |
| `MotionFacts.MoveBounceIsPerpendicular` | main.py:69-71 | A bounce from a non-zero gradient turns the line by a right angle about the old centre. |
| `MotionFacts.MoveLandsNearLine` | main.py:73-76 | The new centre is integral, and on each axis it lies less than 1 from the exact point on the new line and no farther from zero than that point (truncation toward zero). |
| `Motion.Moves` | main.py:105-109 | Over any number of frames, each calling move, only the centre and the trajectory change; radius, fill, border, speed and bounds stay as they were. |
| `MotionFacts.ZeroGradientNeverAdvances` | main.py:17-19 | A ball with gradient 0 and an integral x keeps gradient 0 and its x through any number of moves. |

## Left out

- `Circle.draw` (circles.py:32-37) and the `surface` every circle keeps: drawing with pygame has no result the model could state.
- `Ball.process` (main.py:78-84): beyond calling `move` it only draws; its paddle collision is commented out.
- `Paddle` (main.py:32-35) adds nothing to `pygame.Rect`; rectangles are the plain record `Circles.Rect`.
- The `print("ye")` in `move` (main.py:70): debug output.
- Module-level setup and the rest of the game loop (main.py:4-7 and 88-116): window, clock, drawing, event polling and the `running` flag. `Motion.Moves` keeps only the call to `move` made once per frame.
- Default arguments of the constructors (`border=0`, `border_colour=None`, `speed=5.00`): `Circles.MakeCircle` and `Motion.MakeBall` take every argument explicitly; a missing border colour is still modelled.
- IEEE double rounding and `math.sqrt`: all arithmetic is exact; `int(c * 0.5)` on huge colour channels, which loses precision in a double, is modelled exactly.
- `Circles.Shadow`: channels beyond the double range (about 2^1024 and more) make `shadow` raise OverflowError in circles.py when it multiplies by 0.5; the model has no error path there and returns the exact halved value.
- `CircleFacts.ClosestInRect`: stated for rectangles of non-negative width and height; with a negative width or height the clamp returns the left or top edge (as `Circles.Clamp` states), and there is no closed rectangle to contain it.
- `CircleFacts.RectangleHitIffTouches`: stated for rectangles of non-negative width and height, for the same reason.
- `Circles.CircleIntersect`: its closed-form contract is stated for radii >= 0; `CircleFacts.CircleIntersectMatchesDistance` covers every radius.
- `Circles.RootTestSquared`: stated for radii >= 0, for the same reason.
- `Motion.IntersectBounds`: the centre is promised strictly inside only for radius >= 0; with a negative radius the test can be false for a centre outside.

=== FILE: circle_facts.dfy ===
/**
  Properties of the colour and circle operations of circles.py: what the
  shadow of a colour is, what the intersection tests mean geometrically,
  where the closest point of a rectangle lies, and how the collision axis
  and the push of rectangle_intersect behave, including its oddities.
 */
module CircleFacts {
  import opened Circles

  // ---------------------------------------------------------------------------
  // Colour
  // ---------------------------------------------------------------------------

  /** The shadow channel is fully determined by `HalvedChannel`. */
  lemma HalvedChannelUnique(c: int, h1: int, h2: int)
    requires HalvedChannel(c, h1) && HalvedChannel(c, h2)
    ensures h1 == h2
  {
  }

  /** A colour with 8-bit channels has a shadow with channels in [0, 127], none brighter. */
  lemma ShadowOfByteColour(col: Colour)
    requires 0 <= col.red <= 255 && 0 <= col.green <= 255 && 0 <= col.blue <= 255
    ensures 0 <= Shadow(col).red <= 127 && Shadow(col).red <= col.red
    ensures 0 <= Shadow(col).green <= 127 && Shadow(col).green <= col.green
    ensures 0 <= Shadow(col).blue <= 127 && Shadow(col).blue <= col.blue
  {
  }

  /** A negative channel, which Colour never rejects, is clamped to 0. */
  lemma ShadowClampsNegative(col: Colour)
    requires col.red < 0 || col.green < 0 || col.blue < 0
    ensures col.red < 0 ==> Shadow(col).red == 0
    ensures col.green < 0 ==> Shadow(col).green == 0
    ensures col.blue < 0 ==> Shadow(col).blue == 0
  {
  }

  /** The shadow of the shadow quarters every non-negative channel. */
  lemma ShadowTwiceQuarters(col: Colour)
    requires col.red >= 0 && col.green >= 0 && col.blue >= 0
    ensures Shadow(Shadow(col)) == Colour(col.red / 4, col.green / 4, col.blue / 4)
  {
  }

  /** to_tuple followed by the constructor, and the other way round, are identities. */
  lemma TupleRoundTrip(col: Colour, t: (int, int, int))
    ensures FromTuple(ToTuple(col)) == col
    ensures ToTuple(FromTuple(t)) == t
  {
  }

  // ---------------------------------------------------------------------------
  // Point in circle
  // ---------------------------------------------------------------------------

  lemma Dist2Symmetric(p: Point, q: Point)
    ensures Dist2(p, q) == Dist2(q, p)
  {
    assert Sq(p.x - q.x) == Sq(q.x - p.x);
    assert Sq(p.y - q.y) == Sq(q.y - p.y);
  }

  lemma Dist2NonNegative(p: Point, q: Point)
    ensures Dist2(p, q) >= 0.0
  {
    SquareNonNegative(p.x - q.x);
    SquareNonNegative(p.y - q.y);
  }

  /**
    For the true distance d >= 0 between the point and the centre,
    point_intersect holds exactly when d <= |r|: the radius is squared, so
    its sign does not matter.
   */
  lemma PointIntersectMatchesDistance(c: Circle, p: Point, d: real)
    requires d >= 0.0 && Sq(d) == Dist2(p, c.centre)
    ensures PointIntersect(c, p) <==> d <= Abs(c.radius)
  {
    var r := Abs(c.radius);
    assert Sq(r) == Sq(c.radius);
    SquareBeyond(d, r);
    if d <= r {
      SquareMonotone(d, r);
    }
  }

  /**
    The test is inclusive: every point exactly one radius away from the
    centre, in any unit direction (ux, uy), counts as inside.
   */
  lemma PointOnRimIsInside(c: Circle, ux: real, uy: real)
    requires Sq(ux) + Sq(uy) == 1.0
    ensures PointIntersect(c, Point(c.centre.x + c.radius * ux, c.centre.y + c.radius * uy))
  {
    var r := c.radius;
    var p := Point(c.centre.x + r * ux, c.centre.y + r * uy);
    assert p.x - c.centre.x == r * ux;
    assert p.y - c.centre.y == r * uy;
    assert Sq(r * ux) == Sq(r) * Sq(ux);
    assert Sq(r * uy) == Sq(r) * Sq(uy);
    assert Dist2(p, c.centre) == Sq(r) * (Sq(ux) + Sq(uy));
  }

  /**
    Testing a point is testing the circle against a circle of radius 0
    centred on that point (for a circle of non-negative radius).
   */
  lemma PointIntersectIsZeroRadiusCircle(c: Circle, p: Point)
    requires c.radius >= 0.0
    ensures PointIntersect(c, p) <==> CircleIntersect(c, Circle(Black, 0.0, p, 0, Black))
  {
    var dot := Circle(Black, 0.0, p, 0, Black);
    var d2 := Dist2(p, c.centre);
    Dist2NonNegative(p, c.centre);
    var r := c.radius;
    if PointIntersect(c, p) {
      if d2 < Sq(r) {
        assert r != 0.0;
        assert RootGt(d2, 0.0 - r);
        assert RootLt(d2, r + 0.0);
      } else {
        assert RootEq(d2, r + 0.0);
      }
    }
    if CircleIntersect(c, dot) {
      if RootEq(d2, 0.0 - r) {
        assert Sq(0.0 - r) == Sq(r);
      }
    }
  }

  // ---------------------------------------------------------------------------
  // Circle against circle
  // ---------------------------------------------------------------------------

  lemma RootEqMeansEqual(d2: real, s: real, d: real)
    requires d >= 0.0 && Sq(d) == d2
    ensures RootEq(d2, s) <==> d == s
  {
    if RootEq(d2, s) {
      SquareInjective(d, s);
    }
  }

  lemma RootLtMeansLess(d2: real, s: real, d: real)
    requires d >= 0.0 && Sq(d) == d2
    ensures RootLt(d2, s) <==> d < s
  {
    if s >= 0.0 {
      SquareBeyond(d, s);
    }
    if d < s {
      SquareStrict(d, s);
    }
  }

  lemma RootGtMeansGreater(d2: real, s: real, d: real)
    requires d >= 0.0 && Sq(d) == d2
    ensures RootGt(d2, s) <==> s < d
  {
    if s >= 0.0 {
      if d <= s {
        SquareMonotone(d, s);
      }
      if s < d {
        SquareStrict(s, d);
      }
    }
  }

  /**
    Replacing `math.sqrt` by squared comparisons is exact: for the true
    centre distance d, circle_intersect holds exactly when d == r1 + r2,
    or d == r2 - r1, or r2 - r1 < d < r1 + r2, whatever the radii.
   */
  lemma CircleIntersectMatchesDistance(c1: Circle, c2: Circle, d: real)
    requires d >= 0.0 && Sq(d) == Dist2(c2.centre, c1.centre)
    ensures CircleIntersect(c1, c2) <==>
              || d == c1.radius + c2.radius
              || d == c2.radius - c1.radius
              || c2.radius - c1.radius < d < c1.radius + c2.radius
  {
    var d2 := Dist2(c2.centre, c1.centre);
    var r1 := c1.radius;
    var r2 := c2.radius;
    RootEqMeansEqual(d2, r1 + r2, d);
    RootEqMeansEqual(d2, r2 - r1, d);
    RootGtMeansGreater(d2, r2 - r1, d);
    RootLtMeansLess(d2, r1 + r2, d);
  }

  /** With r1 >= r2 >= 0 the test holds exactly when d <= r1 + r2. */
  lemma CircleIntersectWhenLarger(c1: Circle, c2: Circle, d: real)
    requires d >= 0.0 && Sq(d) == Dist2(c2.centre, c1.centre)
    requires 0.0 <= c2.radius <= c1.radius
    ensures CircleIntersect(c1, c2) <==> d <= c1.radius + c2.radius
  {
    CircleIntersectMatchesDistance(c1, c2, d);
  }

  /** With 0 <= r1 < r2 the test holds exactly when r2 - r1 <= d <= r1 + r2. */
  lemma CircleIntersectWhenSmaller(c1: Circle, c2: Circle, d: real)
    requires d >= 0.0 && Sq(d) == Dist2(c2.centre, c1.centre)
    requires 0.0 <= c1.radius < c2.radius
    ensures CircleIntersect(c1, c2) <==> c2.radius - c1.radius <= d <= c1.radius + c2.radius
  {
    CircleIntersectMatchesDistance(c1, c2, d);
  }

  /**
    The test is not symmetric: a circle strictly inside a larger one without
    touching it does not intersect the larger one, yet the larger one
    intersects it.
   */
  lemma NestedCirclesAsymmetric(small: Circle, large: Circle, d: real)
    requires small.radius >= 0.0
    requires d >= 0.0 && Sq(d) == Dist2(small.centre, large.centre)
    requires d + small.radius < large.radius
    ensures !CircleIntersect(small, large)
    ensures CircleIntersect(large, small)
  {
    Dist2Symmetric(small.centre, large.centre);
    CircleIntersectMatchesDistance(small, large, d);
    CircleIntersectMatchesDistance(large, small, d);
  }

  /**
    The two orders can disagree: around any common centre, a circle of
    radius 1 does not intersect a circle of radius 5, but the converse holds.
    The centre is a parameter rather than a literal point because the solver
    handles the symbolic centre far more cheaply than literal coordinates.
   */
  lemma CircleIntersectNotSymmetric(centre: Point)
    ensures exists a: Circle, b: Circle :: CircleIntersect(a, b) && !CircleIntersect(b, a)
  {
    var small := Circle(Black, 1.0, centre, 0, Black);
    var large := Circle(Black, 5.0, centre, 0, Black);
    assert Dist2(small.centre, large.centre) == Sq(0.0);
    NestedCirclesAsymmetric(small, large, 0.0);
  }

  // ---------------------------------------------------------------------------
  // Circle against rectangle
  // ---------------------------------------------------------------------------

  /**
    For a rectangle of non-negative size the closest point lies in the closed
    rectangle, and it is the centre itself exactly when the centre does.
   */
  lemma ClosestInRect(p: Point, rect: Rect)
    requires rect.width >= 0 && rect.height >= 0
    ensures InRect(Closest(p, rect), rect)
    ensures InRect(p, rect) <==> Closest(p, rect) == p
  {
  }

  /** One axis of the clamp: no point of [lo, hi] is nearer to v than Clamp(v, lo, hi). */
  lemma ClampIsNearest(v: real, lo: real, hi: real, q: real)
    requires lo <= q <= hi
    ensures Sq(v - Clamp(v, lo, hi)) <= Sq(v - q)
  {
    var k := Clamp(v, lo, hi);
    if v < lo {
      SquareMonotone(k - v, q - v);
      assert Sq(v - k) == Sq(k - v) && Sq(v - q) == Sq(q - v);
    } else if v > hi {
      SquareMonotone(v - k, v - q);
    } else {
      ProductNonNegative(Abs(v - q), Abs(v - q));
    }
  }

  /** The clamped point is a nearest point of the rectangle to `p`. */
  lemma ClosestIsNearest(p: Point, rect: Rect, q: Point)
    requires InRect(q, rect)
    ensures Dist2(Closest(p, rect), p) <= Dist2(q, p)
  {
    var k := Closest(p, rect);
    ClampIsNearest(p.x, rect.x as real, (rect.x + rect.width) as real, q.x);
    ClampIsNearest(p.y, rect.y as real, (rect.y + rect.height) as real, q.y);
    Dist2Symmetric(k, p);
    Dist2Symmetric(q, p);
  }

  /**
    rectangle_intersect reports a hit exactly when the circle contains some
    point of the closed rectangle, i.e. when circle and rectangle touch.
   */
  lemma RectangleHitIffTouches(c: Circle, rect: Rect)
    requires rect.width >= 0 && rect.height >= 0
    ensures RectangleIntersect(c, rect).side != NoCollision <==>
              exists q :: InRect(q, rect) && PointIntersect(c, q)
  {
    var k := Closest(c.centre, rect);
    ClosestInRect(c.centre, rect);
    if RectangleIntersect(c, rect).side != NoCollision {
      Dist2Symmetric(k, c.centre);
      assert InRect(k, rect) && PointIntersect(c, k);
    }
    if exists q :: InRect(q, rect) && PointIntersect(c, q) {
      var q :| InRect(q, rect) && PointIntersect(c, q);
      ClosestIsNearest(c.centre, rect, q);
      Dist2Symmetric(q, c.centre);
    }
  }

  /**
    A centre inside the rectangle has overlap 0 on both axes, so the tie goes
    to x and the centre is moved right by one radius.
   */
  lemma CentreInsideRectGoesX(c: Circle, rect: Rect)
    requires InRect(c.centre, rect)
    ensures RectangleIntersect(c, rect).side == AxisX
    ensures RectangleIntersect(c, rect).circle.centre == Point(c.centre.x + c.radius, c.centre.y)
  {
    assert Closest(c.centre, rect) == c.centre;
    assert Dist2(c.centre, c.centre) == 0.0;
    ProductNonNegative(Abs(c.radius), Abs(c.radius));
  }

  /**
    The push does not move the ball away: a centre strictly before the
    touched edge on the reported axis ends one radius past that edge, and a
    centre strictly after it ends one radius before it. Either way the
    centre crosses the touched edge; when the radius exceeds the width (or
    height) it lands beyond the rectangle's far edge.
   */
  lemma PushCrossesEdge(c: Circle, rect: Rect)
    requires c.radius > 0.0
    ensures var h := RectangleIntersect(c, rect);
            var k := Closest(c.centre, rect);
            && (h.side == AxisX && c.centre.x < k.x ==>
                  c.centre.x < k.x < h.circle.centre.x && h.circle.centre.x == k.x + c.radius)
            && (h.side == AxisX && c.centre.x > k.x ==>
                  h.circle.centre.x < k.x < c.centre.x && h.circle.centre.x == k.x - c.radius)
            && (h.side == AxisY && c.centre.y < k.y ==>
                  c.centre.y < k.y < h.circle.centre.y && h.circle.centre.y == k.y + c.radius)
            && (h.side == AxisY && c.centre.y > k.y ==>
                  h.circle.centre.y < k.y < c.centre.y && h.circle.centre.y == k.y - c.radius)
  {
  }

  /**
    A ball touching the left edge from the left is moved to rect.x + radius,
    past that edge; a ball wider than the rectangle is carried beyond its
    right edge.
   */
  lemma LeftBallPushedPastEdge(c: Circle, rect: Rect)
    requires c.radius > 0.0
    requires c.centre.x < rect.x as real
    requires rect.width >= 0
    requires RectangleIntersect(c, rect).side == AxisX
    ensures RectangleIntersect(c, rect).circle.centre == Point(rect.x as real + c.radius, c.centre.y)
    ensures RectangleIntersect(c, rect).circle.centre.x > rect.x as real
    ensures c.radius > rect.width as real ==>
              RectangleIntersect(c, rect).circle.centre.x > (rect.x + rect.width) as real
  {
  }

  /**
    The game's own sizes: a ball of radius 35 at (49, 60) touching a paddle
    of width 10 at (50, 50) is pushed to x = 85, past the paddle's right edge at 60.
   */
  lemma GameBallPushedThroughPaddle()
    ensures RectangleIntersect(Circle(Black, 35.0, Point(49.0, 60.0), 0, Black), Rect(50, 50, 10, 70))
            == RectHit(AxisX, Circle(Black, 35.0, Point(85.0, 60.0), 0, Black))
  {
  }

  /** Circle at (0, 0) of radius 5 and the rectangle (10, 10)-(20, 20): no collision. */
  lemma FarCircleMisses()
    ensures RectangleIntersect(Circle(Black, 5.0, Point(0.0, 0.0), 0, Black), Rect(10, 10, 10, 10)).side == NoCollision
  {
  }

  /** Circle at (5, 5) of radius 6: the corner (10, 10) is sqrt(50) away, so no collision. */
  lemma CornerOutOfReach()
    ensures RectangleIntersect(Circle(Black, 6.0, Point(5.0, 5.0), 0, Black), Rect(10, 10, 10, 10)).side == NoCollision
  {
  }

  /**
    Circle at (5, 5) of radius 8 reaches the corner (10, 10); both overlaps
    are 5, the tie goes to x and the centre moves to (18, 5).
   */
  lemma CornerTieGoesX()
    ensures RectangleIntersect(Circle(Black, 8.0, Point(5.0, 5.0), 0, Black), Rect(10, 10, 10, 10))
            == RectHit(AxisX, Circle(Black, 8.0, Point(18.0, 5.0), 0, Black))
  {
  }
}

=== FILE: circles.dfy ===
/**
  Colours, circles and the circle intersection tests of the Pong game (circles.py).

  Coordinates, radii and distances are exact reals. circles.py computes in
  IEEE doubles and takes a `math.sqrt` in the circle-circle test; here every
  comparison against a square root is replaced by an exact comparison of
  squares (see `RootEq`, `RootLt`, `RootGt` and the lemma
  `CircleIntersectMatchesDistance`, which proves the replacement exact).
  Drawing onto a pygame surface is not modelled.
 */
module Circles {

  datatype Option<+T> = None | Some(value: T)

  // ---------------------------------------------------------------------------
  // Numeric helpers
  // ---------------------------------------------------------------------------

  function Sq(v: real): real { v * v }

  function Min(a: real, b: real): real { if a <= b then a else b }

  function Max(a: real, b: real): real { if a >= b then a else b }

  function Abs(v: real): real { if v >= 0.0 then v else -v }

  /** Products of non-negative factors are non-negative. */
  lemma ProductNonNegative(a: real, b: real)
    requires a >= 0.0 && b >= 0.0
    ensures a * b >= 0.0
  {
  }

  lemma SquareNonNegative(v: real)
    ensures Sq(v) >= 0.0
  {
    if v < 0.0 {
      ProductNonNegative(-v, -v);
    } else {
      ProductNonNegative(v, v);
    }
  }

  /** Squaring is strictly increasing on the non-negative reals. */
  lemma SquareStrict(a: real, b: real)
    requires 0.0 <= a < b
    ensures Sq(a) < Sq(b)
  {
    var d := b - a;
    ProductNonNegative(d, a);
    assert d * b > 0.0;
    assert Sq(b) == Sq(a) + d * b + d * a;
  }

  /** A square never exceeds another square of a larger magnitude. */
  lemma SquareMonotone(a: real, b: real)
    requires 0.0 <= a <= b
    ensures Sq(a) <= Sq(b)
  {
    if a < b {
      SquareStrict(a, b);
    }
  }

  /** A magnitude beyond r >= 0 squares to more than r^2. */
  lemma SquareBeyond(a: real, r: real)
    requires r >= 0.0
    ensures (a > r || a < -r) ==> Sq(r) < Sq(a)
  {
    if a > r {
      SquareStrict(r, a);
    } else if a < -r {
      SquareStrict(r, -a);
      assert Sq(-a) == Sq(a);
    }
  }

  /** If a^2 <= r^2 with r >= 0, then a lies within [-r, r]. */
  lemma AbsBoundFromSquare(a: real, r: real)
    requires r >= 0.0
    requires Sq(a) <= Sq(r)
    ensures -r <= a <= r
  {
    SquareBeyond(a, r);
  }

  /** Two non-negative reals with the same square are equal. */
  lemma SquareInjective(a: real, b: real)
    requires a >= 0.0 && b >= 0.0
    requires Sq(a) == Sq(b)
    ensures a == b
  {
    SquareBeyond(a, b);
    SquareBeyond(b, a);
  }

  // ---------------------------------------------------------------------------
  // Colour (circles.py:5-19)
  // ---------------------------------------------------------------------------

  /** An RGB colour. The channels are Python ints, so they are unbounded here. */
  datatype Colour = Colour(red: int, green: int, blue: int)

  const Black := Colour(0, 0, 0)

  /** `int(c * 0.5)`: half of `c`, truncated toward zero as Python's `int` does. */
  function HalfTowardZero(c: int): (h: int)
    ensures c >= 0 ==> 0 <= 2 * h <= c < 2 * h + 2
    ensures c < 0 ==> 2 * h - 2 < c <= 2 * h <= 0
  {
    if c >= 0 then c / 2 else -((-c) / 2)
  }

  /**
    `h` is the shadow of channel `c`: never negative, equal to half of `c`
    rounded down when `c` is not negative, and 0 when it is.
   */
  ghost predicate HalvedChannel(c: int, h: int)
  {
    && h >= 0
    && (c >= 0 ==> 2 * h <= c < 2 * h + 2)
    && (c < 0 ==> h == 0)
  }

  /** `max(0, int(c * 0.5))` for one channel. */
  function ShadowChannel(c: int): (h: int)
    ensures HalvedChannel(c, h)
  {
    var half := HalfTowardZero(c);
    if 0 >= half then 0 else half
  }

  /** Colour.shadow: each channel halved, rounded down, clamped at 0. */
  function Shadow(col: Colour): (s: Colour)
    ensures HalvedChannel(col.red, s.red)
    ensures HalvedChannel(col.green, s.green)
    ensures HalvedChannel(col.blue, s.blue)
  {
    Colour(ShadowChannel(col.red), ShadowChannel(col.green), ShadowChannel(col.blue))
  }

  /** Colour.__init__ fed with a tuple of three channels. */
  function FromTuple(t: (int, int, int)): (col: Colour)
    ensures (col.red, col.green, col.blue) == t
  {
    Colour(t.0, t.1, t.2)
  }

  /** Colour.to_tuple: the channels in (red, green, blue) order. */
  function ToTuple(col: Colour): (t: (int, int, int))
    ensures FromTuple(t) == col
  {
    (col.red, col.green, col.blue)
  }

  // ---------------------------------------------------------------------------
  // Circle (circles.py:22-30, 39-57, 97-98)
  // ---------------------------------------------------------------------------

  datatype Point = Point(x: real, y: real)

  /**
    A circle: the pygame surface it is drawn on is not part of the model.
    The radius is not constrained: the source never checks it.
   */
  datatype Circle = Circle(fill: Colour, radius: real, centre: Point, border: int, borderColour: Colour)

  /** Circle.__init__: a missing border colour defaults to black. */
  function MakeCircle(fill: Colour, radius: real, centre: Point, border: int, borderColour: Option<Colour>): (c: Circle)
    ensures c.fill == fill && c.radius == radius && c.centre == centre && c.border == border
    ensures borderColour.None? ==> c.borderColour == Black
    ensures borderColour.Some? ==> c.borderColour == borderColour.value
  {
    Circle(fill, radius, centre, border, if borderColour.Some? then borderColour.value else Black)
  }

  /** Circle.set_fill: replaces the fill colour and nothing else. */
  function SetFill(c: Circle, fill: Colour): (c': Circle)
    ensures c'.fill == fill
    ensures c'.(fill := c.fill) == c
  {
    c.(fill := fill)
  }

  /** Squared Euclidean distance between two points. */
  function Dist2(p: Point, q: Point): real
  {
    Sq(p.x - q.x) + Sq(p.y - q.y)
  }

  /**
    Circle.point_intersect: inclusive point-in-circle test. The centre is
    always inside, and an accepted point lies in the square of half-side
    |radius| around the centre.
   */
  function PointIntersect(c: Circle, p: Point): (inside: bool)
    ensures p == c.centre ==> inside
    ensures inside ==> Abs(p.x - c.centre.x) <= Abs(c.radius) && Abs(p.y - c.centre.y) <= Abs(c.radius)
  {
    SquareNonNegative(p.x - c.centre.x);
    SquareNonNegative(p.y - c.centre.y);
    SquareNonNegative(c.radius);
    assert Sq(Abs(c.radius)) == Sq(c.radius);
    SquareBeyond(p.x - c.centre.x, Abs(c.radius));
    SquareBeyond(p.y - c.centre.y, Abs(c.radius));
    Dist2(p, c.centre) <= Sq(c.radius)
  }

  /** sqrt(d2) == s, for d2 >= 0, stated without the square root. */
  predicate RootEq(d2: real, s: real)
  {
    s >= 0.0 && d2 == Sq(s)
  }

  /** sqrt(d2) < s, for d2 >= 0, stated without the square root. */
  predicate RootLt(d2: real, s: real)
  {
    s > 0.0 && d2 < Sq(s)
  }

  /** s < sqrt(d2), for d2 >= 0, stated without the square root. */
  predicate RootGt(d2: real, s: real)
  {
    s < 0.0 || Sq(s) < d2
  }

  /**
    For d2 >= 0 and radii r1, r2 >= 0, the three square-root tests of
    circle_intersect together say r2 - r1 <= sqrt(d2) <= r1 + r2, where the
    lower bound only matters when r2 > r1.
   */
  lemma RootTestSquared(d2: real, r1: real, r2: real)
    requires d2 >= 0.0
    ensures r1 >= 0.0 && r2 >= 0.0 ==>
              ((RootEq(d2, r1 + r2) || RootEq(d2, r2 - r1) || (RootGt(d2, r2 - r1) && RootLt(d2, r1 + r2)))
               <==> d2 <= Sq(r1 + r2) && (r2 <= r1 || Sq(r2 - r1) <= d2))
  {
    if r1 >= 0.0 && r2 >= 0.0 {
      SquareNonNegative(r1 + r2);
      SquareNonNegative(r2 - r1);
      if r2 - r1 > 0.0 {
        SquareMonotone(r2 - r1, r1 + r2);
      }
    }
  }

  /**
    Circle.circle_intersect, with `self` as `c1` and the argument as `c2`:
    true when the distance d between the centres equals r1 + r2 or r2 - r1,
    or lies strictly between r2 - r1 and r1 + r2. Note the signed `r2 - r1`:
    the test is not symmetric in its two circles. For non-negative radii it
    holds exactly when d <= r1 + r2 and, if r2 > r1, also r2 - r1 <= d.
   */
  function CircleIntersect(c1: Circle, c2: Circle): (hit: bool)
    ensures c1.radius >= 0.0 && c2.radius >= 0.0 ==>
              (hit <==> && Dist2(c2.centre, c1.centre) <= Sq(c1.radius + c2.radius)
                        && (c2.radius <= c1.radius || Sq(c2.radius - c1.radius) <= Dist2(c2.centre, c1.centre)))
  {
    var d2 := Dist2(c2.centre, c1.centre);
    var r1 := c1.radius;
    var r2 := c2.radius;
    SquareNonNegative(c2.centre.x - c1.centre.x);
    SquareNonNegative(c2.centre.y - c1.centre.y);
    RootTestSquared(d2, r1, r2);
    if RootEq(d2, r1 + r2) || RootEq(d2, r2 - r1) then true
    else if RootGt(d2, r2 - r1) && RootLt(d2, r1 + r2) then true
    else false
  }

  // ---------------------------------------------------------------------------
  // Circle against rectangle (circles.py:59-95)
  // ---------------------------------------------------------------------------

  /** A pygame.Rect: top-left corner, width and height, all integers. */
  datatype Rect = Rect(x: int, y: int, width: int, height: int)

  /** The answer of rectangle_intersect: `None`, `"x"` or `"y"`. */
  datatype Collision = NoCollision | AxisX | AxisY

  /** The answer together with the circle as rectangle_intersect leaves it. */
  datatype RectHit = RectHit(side: Collision, circle: Circle)

  /** `max(lo, min(v, hi))`: `v` clamped to [lo, hi] (to `lo` when hi < lo). */
  function Clamp(v: real, lo: real, hi: real): (r: real)
    ensures lo <= hi ==> lo <= r <= hi
    ensures lo <= v <= hi ==> r == v
    ensures hi < lo ==> r == lo
  {
    Max(lo, Min(v, hi))
  }

  /**
    The point of the rectangle closest to `p`, clamping each axis separately:
    it lies in the rectangle whenever the rectangle is not empty, and is `p`
    itself when `p` already lies in the rectangle.
   */
  function Closest(p: Point, rect: Rect): (q: Point)
    ensures rect.width >= 0 && rect.height >= 0 ==> InRect(q, rect)
    ensures InRect(p, rect) ==> q == p
  {
    Point(Clamp(p.x, rect.x as real, (rect.x + rect.width) as real),
          Clamp(p.y, rect.y as real, (rect.y + rect.height) as real))
  }

  /** `p` lies in the closed rectangle [x, x + width] x [y, y + height]. */
  predicate InRect(p: Point, rect: Rect)
  {
    && rect.x as real <= p.x <= (rect.x + rect.width) as real
    && rect.y as real <= p.y <= (rect.y + rect.height) as real
  }

  /**
    Circle.rectangle_intersect. When the squared distance from the centre to
    the closest point exceeds r^2 the answer is NoCollision and the circle is
    left alone. Otherwise the axis with the larger overlap |centre - closest|
    is reported, ties going to x, and the centre is moved along that axis to
    closest + r when the centre is at or before the closest point and to
    closest - r when it is after it.
   */
  function RectangleIntersect(c: Circle, rect: Rect): (h: RectHit)
    ensures h.side == NoCollision <==> Dist2(Closest(c.centre, rect), c.centre) > Sq(c.radius)
    ensures h.side == NoCollision ==> h.circle == c
    ensures h.circle == c.(centre := h.circle.centre)
    ensures h.side == AxisX ==>
              && Abs(c.centre.x - Closest(c.centre, rect).x) >= Abs(c.centre.y - Closest(c.centre, rect).y)
              && h.circle.centre.y == c.centre.y
              && (c.centre.x <= Closest(c.centre, rect).x ==> h.circle.centre.x == Closest(c.centre, rect).x + c.radius)
              && (c.centre.x > Closest(c.centre, rect).x ==> h.circle.centre.x == Closest(c.centre, rect).x - c.radius)
    ensures h.side == AxisY ==>
              && Abs(c.centre.x - Closest(c.centre, rect).x) < Abs(c.centre.y - Closest(c.centre, rect).y)
              && h.circle.centre.x == c.centre.x
              && (c.centre.y <= Closest(c.centre, rect).y ==> h.circle.centre.y == Closest(c.centre, rect).y + c.radius)
              && (c.centre.y > Closest(c.centre, rect).y ==> h.circle.centre.y == Closest(c.centre, rect).y - c.radius)
  {
    var a := c.centre.x;
    var b := c.centre.y;
    var closest := Closest(c.centre, rect);
    if Dist2(closest, c.centre) <= Sq(c.radius) then
      var overlapX := Abs(a - closest.x);
      var overlapY := Abs(b - closest.y);
      if overlapX >= overlapY then
        var x' := if a <= closest.x then closest.x + c.radius else closest.x - c.radius;
        RectHit(AxisX, c.(centre := Point(x', b)))
      else
        var y' := if b <= closest.y then closest.y + c.radius else closest.y - c.radius;
        RectHit(AxisY, c.(centre := Point(a, y')))
    else
      RectHit(NoCollision, c)
  }
}

=== FILE: motion.dfy ===
/**
  The ball of the Pong game (main.py): its trajectory, kept as a line
  y = gradient * x + y_intercept, the test against the playfield bounds,
  and the per-frame move.

  Gradients, intercepts and speeds are exact reals instead of IEEE doubles.
  The debug output and the drawing done by the ball are not modelled.
 */
module Motion {
  import opened Circles

  // ---------------------------------------------------------------------------
  // Truncation toward zero: Python's int() on a float
  // ---------------------------------------------------------------------------

  predicate IsIntegral(v: real)
  {
    v == v.Floor as real
  }

  /** `n` is what int(v) gives: an integer, v with its fractional part dropped toward zero. */
  predicate TruncationOf(v: real, n: real)
  {
    && IsIntegral(n)
    && (v >= 0.0 ==> n <= v < n + 1.0)
    && (v < 0.0 ==> n - 1.0 < v <= n)
  }

  function Trunc(v: real): (n: int)
    ensures TruncationOf(v, n as real)
  {
    if v >= 0.0 then v.Floor else -((-v).Floor)
  }

  // ---------------------------------------------------------------------------
  // Trajectory (main.py:10-29)
  // ---------------------------------------------------------------------------

  /**
    The line the ball travels along. The getters get_gradient and
    get_y_intercept are the field selectors.
   */
  datatype Trajectory = Trajectory(gradient: real, yIntercept: real)

  /** `p` lies on the line of `t`. */
  predicate OnLine(t: Trajectory, p: Point)
  {
    p.y == t.gradient * p.x + t.yIntercept
  }

  /**
    Trajectory.perpendicular: the line through `p` whose gradient is -1/g.
    Python raises ZeroDivisionError for g == 0, and the handler sets the new
    gradient to 0 rather than making the line vertical.
   */
  function Perpendicular(t: Trajectory, p: Point): (t': Trajectory)
    ensures t.gradient != 0.0 ==> t'.gradient * t.gradient == -1.0
    ensures t.gradient == 0.0 ==> t'.gradient == 0.0
    ensures OnLine(t', p)
  {
    var g := if t.gradient != 0.0 then -1.0 / t.gradient else 0.0;
    Trajectory(g, p.y - g * p.x)
  }

  // ---------------------------------------------------------------------------
  // Ball (main.py:38-76)
  // ---------------------------------------------------------------------------

  /**
    The playfield edges. The source stores them as ((north, west), (south,
    east)); the fields keep those names.
   */
  datatype Bounds = Bounds(north: int, west: int, south: int, east: int)

  /** A ball: a circle that moves along a trajectory within fixed bounds. */
  datatype Ball = Ball(body: Circle, speed: real, trajectory: Trajectory, bounds: Bounds)

  /** Ball.__init__: the nested bounds tuple is read as ((north, west), (south, east)). */
  function MakeBall(fill: Colour, radius: real, centre: Point, trajectory: Trajectory,
                    bounds: ((int, int), (int, int)), border: int, borderColour: Option<Colour>,
                    speed: real): (b: Ball)
    ensures b.body == MakeCircle(fill, radius, centre, border, borderColour)
    ensures b.speed == speed && b.trajectory == trajectory
    ensures b.bounds.north == bounds.0.0 && b.bounds.west == bounds.0.1
    ensures b.bounds.south == bounds.1.0 && b.bounds.east == bounds.1.1
  {
    Ball(MakeCircle(fill, radius, centre, border, borderColour), speed, trajectory,
         Bounds(bounds.0.0, bounds.0.1, bounds.1.0, bounds.1.1))
  }

  /**
    Ball._intersect_bounds: the circle reaches or crosses one of the four
    edges. All four comparisons are inclusive. A ball clear of the bounds is
    narrower than the playfield on both axes, and for a radius >= 0 its
    centre lies strictly inside.
   */
  function IntersectBounds(b: Ball): (touching: bool)
    ensures !touching ==>
              && (b.bounds.east - b.bounds.west) as real > 2.0 * b.body.radius
              && (b.bounds.south - b.bounds.north) as real > 2.0 * b.body.radius
    ensures !touching && b.body.radius >= 0.0 ==> StrictlyInside(b.body.centre, b.bounds)
  {
    var c := b.body.centre;
    var r := b.body.radius;
    if c.x + r >= b.bounds.east as real || c.x - r <= b.bounds.west as real then true
    else if c.y + r >= b.bounds.south as real || c.y - r <= b.bounds.north as real then true
    else false
  }

  /** `p` lies strictly inside the playfield. */
  predicate StrictlyInside(p: Point, bounds: Bounds)
  {
    && bounds.west as real < p.x < bounds.east as real
    && bounds.north as real < p.y < bounds.south as real
  }

  /**
    Ball.move: if the ball touches the bounds, the trajectory becomes the
    perpendicular through the current centre. Then x advances by
    speed * gradient, y is read off the (possibly new) line at that x, and
    both are truncated toward zero. Only the centre and the trajectory change.
   */
  function Move(b: Ball): (b': Ball)
    ensures b' == b.(body := b.body.(centre := b'.body.centre), trajectory := b'.trajectory)
    ensures !IntersectBounds(b) ==> b'.trajectory == b.trajectory
    ensures IntersectBounds(b) ==> b'.trajectory == Perpendicular(b.trajectory, b.body.centre)
    ensures var g := b'.trajectory.gradient;
            var x := b.body.centre.x + b.speed * g;
            && TruncationOf(x, b'.body.centre.x)
            && TruncationOf(g * x + b'.trajectory.yIntercept, b'.body.centre.y)
  {
    var t := if IntersectBounds(b) then Perpendicular(b.trajectory, b.body.centre) else b.trajectory;
    var x := b.body.centre.x + b.speed * t.gradient;
    var y := t.gradient * x + t.yIntercept;
    b.(body := b.body.(centre := Point(Trunc(x) as real, Trunc(y) as real)), trajectory := t)
  }

  /**
    The ball after `n` frames: the game loop calls move once per frame.
    However many frames pass, only the centre and the trajectory change.
   */
  function Moves(b: Ball, n: nat): (b': Ball)
    ensures b' == b.(body := b.body.(centre := b'.body.centre), trajectory := b'.trajectory)
    decreases n
  {
    if n == 0 then b else Moves(Move(b), n - 1)
  }
}

=== FILE: motion_facts.dfy ===
/**
  Properties of the trajectory and of the ball's move (main.py): what the
  perpendicular line is, including its zero-gradient fallback, when the ball
  counts as touching the bounds, and what one or many moves do.
 */
module MotionFacts {
  import opened Circles
  import opened Motion

  // ---------------------------------------------------------------------------
  // Truncation
  // ---------------------------------------------------------------------------

  /** int() has exactly one possible answer. */
  lemma TruncationUnique(v: real, n1: real, n2: real)
    requires TruncationOf(v, n1) && TruncationOf(v, n2)
    ensures n1 == n2
  {
    var k1 := n1.Floor;
    var k2 := n2.Floor;
    assert -1 < k1 - k2 < 1;
  }

  // ---------------------------------------------------------------------------
  // Perpendicular
  // ---------------------------------------------------------------------------

  /**
    For a gradient g != 0 the contract of Perpendicular pins the line down:
    any line with gradient g' such that g' * g == -1 through `p` is the one
    perpendicular returns.
   */
  lemma PerpendicularUnique(t: Trajectory, p: Point, t': Trajectory)
    requires t.gradient != 0.0
    requires t'.gradient * t.gradient == -1.0 && OnLine(t', p)
    ensures t' == Perpendicular(t, p)
  {
    var u := Perpendicular(t, p);
    assert (t'.gradient - u.gradient) * t.gradient == 0.0;
  }

  /**
    The direction vectors (1, g) and (1, g') of the old and the new line are
    orthogonal exactly when g != 0: for g == 0 the fallback keeps the new
    line horizontal, parallel to the old one.
   */
  lemma PerpendicularOrthogonalUnlessZero(t: Trajectory, p: Point)
    ensures var t' := Perpendicular(t, p);
            1.0 + t.gradient * t'.gradient == 0.0 <==> t.gradient != 0.0
  {
  }

  /** From gradient 0 the new line is the horizontal line y = p.y. */
  lemma PerpendicularOfHorizontal(t: Trajectory, p: Point)
    requires t.gradient == 0.0
    ensures Perpendicular(t, p) == Trajectory(0.0, p.y)
  {
  }

  /**
    Taking the perpendicular twice, from a non-zero gradient, gives back the
    original gradient; the line then passes through the second point.
   */
  lemma PerpendicularTwiceRestores(t: Trajectory, p: Point, q: Point)
    requires t.gradient != 0.0
    ensures Perpendicular(Perpendicular(t, p), q).gradient == t.gradient
    ensures OnLine(Perpendicular(Perpendicular(t, p), q), q)
  {
    var t1 := Perpendicular(t, p);
    var t2 := Perpendicular(t1, q);
    assert t1.gradient != 0.0;
    assert t2.gradient * t1.gradient == t.gradient * t1.gradient;
  }

  // ---------------------------------------------------------------------------
  // Bounds
  // ---------------------------------------------------------------------------

  /** The ball is clear of the bounds exactly when it is strictly inside on both axes. */
  lemma IntersectBoundsIffNotInterior(b: Ball)
    ensures !IntersectBounds(b) <==>
              && b.bounds.west as real < b.body.centre.x - b.body.radius
              && b.body.centre.x + b.body.radius < b.bounds.east as real
              && b.bounds.north as real < b.body.centre.y - b.body.radius
              && b.body.centre.y + b.body.radius < b.bounds.south as real
  {
  }

  /**
    For a radius >= 0, _intersect_bounds holds exactly when some point of the
    closed disc (a point point_intersect accepts) lies on or beyond an edge.
   */
  lemma IntersectBoundsIffDiscReachesEdge(b: Ball)
    requires b.body.radius >= 0.0
    ensures IntersectBounds(b) <==> exists q :: PointIntersect(b.body, q) && !StrictlyInside(q, b.bounds)
  {
    var c := b.body.centre;
    var r := b.body.radius;
    if IntersectBounds(b) {
      var q := if c.x + r >= b.bounds.east as real then Point(c.x + r, c.y)
               else if c.x - r <= b.bounds.west as real then Point(c.x - r, c.y)
               else if c.y + r >= b.bounds.south as real then Point(c.x, c.y + r)
               else Point(c.x, c.y - r);
      assert Dist2(q, c) == Sq(r);
      assert PointIntersect(b.body, q) && !StrictlyInside(q, b.bounds);
    }
    if exists q :: PointIntersect(b.body, q) && !StrictlyInside(q, b.bounds) {
      var q :| PointIntersect(b.body, q) && !StrictlyInside(q, b.bounds);
      SquareNonNegative(q.x - c.x);
      SquareNonNegative(q.y - c.y);
      AbsBoundFromSquare(q.x - c.x, r);
      AbsBoundFromSquare(q.y - c.y, r);
    }
  }

  // ---------------------------------------------------------------------------
  // Move
  // ---------------------------------------------------------------------------

  /**
    A bounce turns the line by a right angle (g' * g == -1) about the old
    centre, provided the old gradient is not 0.
   */
  lemma MoveBounceIsPerpendicular(b: Ball)
    requires IntersectBounds(b) && b.trajectory.gradient != 0.0
    ensures Move(b).trajectory.gradient * b.trajectory.gradient == -1.0
    ensures OnLine(Move(b).trajectory, b.body.centre)
  {
  }

  /**
    The new centre is the exact point e on the new line at
    x + speed * gradient, moved by less than 1 toward zero on each axis.
   */
  lemma MoveLandsNearLine(b: Ball)
    ensures var t := Move(b).trajectory;
            var e := Point(b.body.centre.x + b.speed * t.gradient,
                           t.gradient * (b.body.centre.x + b.speed * t.gradient) + t.yIntercept);
            var n := Move(b).body.centre;
            && OnLine(t, e)
            && IsIntegral(n.x) && IsIntegral(n.y)
            && Abs(n.x) <= Abs(e.x) < Abs(n.x) + 1.0
            && Abs(n.y) <= Abs(e.y) < Abs(n.y) + 1.0
            && Abs(e.x - n.x) < 1.0 && Abs(e.y - n.y) < 1.0
  {
  }

  /**
    A ball with gradient 0 and an integral x never moves horizontally:
    neither the move nor the zero-gradient fallback ever gives it a slope.
   */
  lemma {:induction false} ZeroGradientNeverAdvances(b: Ball, n: nat)
    requires b.trajectory.gradient == 0.0 && IsIntegral(b.body.centre.x)
    ensures Moves(b, n).trajectory.gradient == 0.0
    ensures Moves(b, n).body.centre.x == b.body.centre.x
    decreases n
  {
    if n > 0 {
      var b1 := Move(b);
      assert b1.trajectory.gradient == 0.0;
      assert b.body.centre.x + b.speed * 0.0 == b.body.centre.x;
      TruncationUnique(b.body.centre.x, b1.body.centre.x, b.body.centre.x);
      ZeroGradientNeverAdvances(b1, n - 1);
    }
  }
}
